=== FILE: README.md ===
# Firebase signaling client — a Dafny model

This project models the signaling core of the Android AppRTC demo's
`FirebaseRTCClient`. The client subscribes to the realtime-database node `/channels/firebase`. Each peer keeps a record there, keyed by its device
serial: a `connected` flag, an `sdp` slot and an `icecandidate` collection. On every change the database re-delivers the whole node. The client
turns these repeated full snapshots into callbacks on the negotiation engine:
connected-to-room, remote description and remote ICE candidate. It turns local offers, answers,
candidates, candidate removals and disconnection into writes on its own
record.

The model is a pure transition system (`Client.State`). It holds:

- the local id
- the `is_initiator` role flag
- the `sdpAdded` dedup ledger (a set of `type + description` strings)
- the room store, as a map from peer id to record
- a FIFO queue of tasks standing in for the serial Android `Handler`
- the sequence of emitted events

The transitions are:

- `OnDataChange` delivers a snapshot.
- `RunTask` runs the oldest posted task.
- `Drain` runs every posted task.
- `SendOfferSdp`, `SendAnswerSdp`, `SendLocalIceCandidate`, `SendLocalIceCandidateRemovals` and `DisconnectFromRoom` are the outbound operations.
- `Step` and `Run` apply any sequence of these actions.

`Turn` models how the TURN configuration response is flattened into ICE servers.

Modules:

- `Types`: the data.
- `LedgerKey`: the dedup key and its injectivity.
- `RoomStore`: the room node and the writes on it.
- `Turn`: TURN flattening.
- `Client`: the state machine.
- `Properties`: lemmas over steps, runs and snapshot rounds.
- `SelfEcho`: the `!=` finding below.

In the database, a node without children does not exist. The store model keeps this rule: a record with `connected` false, no description and no candidates is absent from the map (`RoomStore.Put`). Because of it, publishing a candidate and then retracting it restores the room exactly.

The model follows the code as written, including these behaviours a reader might not expect:

- A loopback request is only logged, not rejected.
- The room id is ignored; the path is always `/channels/firebase`.
- Sends do not check whether the client is connected.
- The role flag is recomputed on every snapshot and is only ever set to true. It is set when the room node does not exist. A peer that is merely missing from the room does not become the initiator.
- The connected task is posted on every snapshot that lacks the local id. Nothing limits it to once.
- A failed TURN request suppresses the connected event. It is not sent with an empty server list.
- The connected task reads the role flag when it runs (line 70 reads the field inside `run()`), not when it is posted.
- Tasks already queued still run after `disconnectFromRoom`. Because the ledger has been cleared, a queued description is delivered again (`Properties.QueuedDescriptionRunsAfterDisconnect`).

## Model

| member | source | states |
|---|---|---|
| `LedgerKey.Key` | app/src/main/java/org/appspot/apprtc/FirebaseRTCClient.java:100-102 | The ledger key is the type's name followed by the description: the name is a prefix of the key and the rest of the key is exactly the description. |
| `LedgerKey.KeyInjective` | app/src/main/java/org/appspot/apprtc/FirebaseRTCClient.java:100-102 | Two descriptions with the same ledger key `type + description` are equal, so deduplicating by key is deduplicating by description. |
| `RoomStore.Put` | app/src/main/java/org/appspot/apprtc/FirebaseRTCClient.java:58 | Writing a record under one id sets exactly that record, removes the node when it is empty, leaves every other peer's record alone and keeps the room free of empty nodes. |
| `RoomStore.SetConnected` | app/src/main/java/org/appspot/apprtc/FirebaseRTCClient.java:58 | After the write the peer's node exists with `connected` true, its description and candidates unchanged, and other peers untouched. |
| `RoomStore.WriteSdp` | app/src/main/java/org/appspot/apprtc/FirebaseRTCClient.java:163 | The peer's single description slot holds the new description; flag, candidates and other peers unchanged. |
| `RoomStore.PutCandidate` | app/src/main/java/org/appspot/apprtc/FirebaseRTCClient.java:183 | The peer's candidate map gains (or overwrites) exactly the entry under the given key; nothing else changes. |
| `RoomStore.RemoveCandidate` | app/src/main/java/org/appspot/apprtc/FirebaseRTCClient.java:191 | The peer's candidate map loses exactly the given key; removing an absent key leaves the room identical. |
| `RoomStore.RemoveCandidates` | app/src/main/java/org/appspot/apprtc/FirebaseRTCClient.java:190-192 | Removing a list of candidates leaves the peer's candidate map minus the keys of all listed candidates, with flag, description and other peers unchanged. |
| `RoomStore.RemoveRecord` | app/src/main/java/org/appspot/apprtc/FirebaseRTCClient.java:198 | The peer's whole node is gone and other peers are untouched. |
| `RoomStore.RecordsDetermineRoom` | app/src/main/java/org/appspot/apprtc/FirebaseRTCClient.java:58 | Two rooms without empty nodes that read the same at every path are the same room. |
| `RoomStore.RemoveAbsentIsNoOp` | app/src/main/java/org/appspot/apprtc/FirebaseRTCClient.java:190-192 | Retracting a candidate whose key is not published changes nothing. |
| `RoomStore.PutThenRemoveRestores` | app/src/main/java/org/appspot/apprtc/FirebaseRTCClient.java:180-193 | Publishing a candidate under a free key and then retracting it gives back the original room, an absent record included. |
| `Turn.Flatten` | app/src/main/java/org/appspot/apprtc/FirebaseRTCClient.java:223-233 | The server list has one entry per url over all entries. |
| `Turn.FlattenAppend` | app/src/main/java/org/appspot/apprtc/FirebaseRTCClient.java:224-233 | Flattening a concatenation of entry lists is the concatenation of their flattenings. |
| `Turn.FlattenAt` | app/src/main/java/org/appspot/apprtc/FirebaseRTCClient.java:224-232 | The server at position (urls before entry i) + j is url j of entry i, with entry i's username and credential, each "" when absent: one server per (entry, url) pair, in order. |
| `Turn.FlattenFrom` | app/src/main/java/org/appspot/apprtc/FirebaseRTCClient.java:224-232 | Every server in the list comes from some url of some entry. |
| `Turn.FlattenTurnServers` | app/src/main/java/org/appspot/apprtc/FirebaseRTCClient.java:223-234 | The nested loop builds exactly the flattened list, of length the total url count. |
| `Client.Start` | app/src/main/java/org/appspot/apprtc/FirebaseRTCClient.java:134-151 | A new client connecting takes the serial as id, is subscribed, is not the initiator, and has an empty ledger, queue and event log. |
| `Client.ConnectToRoom` | app/src/main/java/org/appspot/apprtc/FirebaseRTCClient.java:144-151 | Connecting sets the id and the subscription and changes nothing else. |
| `Client.CandidateTasks` | app/src/main/java/org/appspot/apprtc/FirebaseRTCClient.java:109-122 | One candidate task per listed candidate, in listing order. |
| `Client.RemoteTasks` | app/src/main/java/org/appspot/apprtc/FirebaseRTCClient.java:86-125 | The tasks a snapshot yields never include a connected task; which description and candidate tasks it yields is stated by `Properties.RemoteTasksDescriptions` and `Properties.RemoteTasksCandidates`. |
| `Client.Exists` | app/src/main/java/org/appspot/apprtc/FirebaseRTCClient.java:53 | A room node that does not exist lists no peer at all. |
| `Client.ExistsIffSomePeer` | app/src/main/java/org/appspot/apprtc/FirebaseRTCClient.java:53 | The room node exists exactly when some peer id is listed under it, in both directions. |
| `Client.OnDataChange` | app/src/main/java/org/appspot/apprtc/FirebaseRTCClient.java:51-126 | The flag becomes `flag or not exists`. The queue grows by exactly one connected task iff the snapshot lacks the local id, and then the local record holds `connected` true, keeps its description and candidates, and other peers are unchanged. Otherwise the store is untouched. The remote tasks follow. Ledger and events are unchanged. |
| `Client.RunTask` | app/src/main/java/org/appspot/apprtc/FirebaseRTCClient.java:60-121 | Pops the oldest task. A description is delivered iff its key was not in the ledger, and the key is then recorded. A candidate is always delivered. A connected event carries the flattened servers and the current flag, and a failed fetch emits nothing. Ledger and event log only grow. |
| `Client.Drain` | app/src/main/java/org/appspot/apprtc/FirebaseRTCClient.java:97-121 | Running all tasks empties the queue, only grows the ledger and the event log, and touches nothing else. |
| `Client.SendOfferSdp` | app/src/main/java/org/appspot/apprtc/FirebaseRTCClient.java:160-164 | The local description slot holds the offer; the local flag and candidates, other peers and the rest of the state are unchanged. |
| `Client.SendAnswerSdp` | app/src/main/java/org/appspot/apprtc/FirebaseRTCClient.java:166-170 | An answer is written exactly as an offer is: the local description slot holds it and nothing else changes. |
| `Client.SendLocalIceCandidate` | app/src/main/java/org/appspot/apprtc/FirebaseRTCClient.java:180-184 | The local candidate map gains the candidate under its hash key; nothing else changes. |
| `Client.SendLocalIceCandidateRemovals` | app/src/main/java/org/appspot/apprtc/FirebaseRTCClient.java:186-193 | The local candidate map loses the keys of all listed candidates; nothing else changes. |
| `Client.DisconnectFromRoom` | app/src/main/java/org/appspot/apprtc/FirebaseRTCClient.java:195-202 | The local record is deleted with others untouched, the listener is removed and the ledger is empty. Queue, events and role flag are kept. |
| `Client.Step` | app/src/main/java/org/appspot/apprtc/FirebaseRTCClient.java:144-201 | A snapshot changes the client only while its listener is registered (added at line 150, removed at line 200): undelivered when unsubscribed, handled by `onDataChange` when subscribed; connecting registers the listener, disconnecting removes it, and no other action touches it. |
| `Properties.StepRole` | app/src/main/java/org/appspot/apprtc/FirebaseRTCClient.java:53-55 | After any action the flag is true iff it was, or the action delivered a snapshot of a nonexistent room node to a subscribed client. |
| `Properties.RunRoleMonotone` | app/src/main/java/org/appspot/apprtc/FirebaseRTCClient.java:53-55 | Once true, the role flag stays true over any sequence of actions. |
| `Properties.StepLedger` | app/src/main/java/org/appspot/apprtc/FirebaseRTCClient.java:201 | Disconnecting empties the ledger. Any other action only grows it. Only running a task adds to it. |
| `Properties.RunLedgerMonotone` | app/src/main/java/org/appspot/apprtc/FirebaseRTCClient.java:100-102 | Over any run without a disconnect the ledger only grows: keys are only added, and only `disconnectFromRoom` (line 201) clears it. |
| `Properties.StartLedgerSound` | app/src/main/java/org/appspot/apprtc/FirebaseRTCClient.java:46 | A new client's ledger records nothing undelivered. |
| `Properties.StepPreservesLedgerSound` | app/src/main/java/org/appspot/apprtc/FirebaseRTCClient.java:100-102 | Every action keeps the invariant that each ledger key belongs to a description already delivered. |
| `Properties.RunPreservesLedgerSound` | app/src/main/java/org/appspot/apprtc/FirebaseRTCClient.java:100-102 | The same invariant holds over any run. |
| `Properties.RunTaskLedger` | app/src/main/java/org/appspot/apprtc/FirebaseRTCClient.java:100-102 | A task other than the description task of d leaves the ledger membership of d's key unchanged. |
| `Properties.RunTaskDeliveryCount` | app/src/main/java/org/appspot/apprtc/FirebaseRTCClient.java:97-105 | One task delivers d exactly once if it adds d's key to the ledger, and not at all otherwise. |
| `Properties.StepDeliveryCount` | app/src/main/java/org/appspot/apprtc/FirebaseRTCClient.java:97-105 | The same holds for any action: a disconnect delivers nothing and only empties the ledger. |
| `Properties.RunDeliversAtMostOnce` | app/src/main/java/org/appspot/apprtc/FirebaseRTCClient.java:97-105 | Between disconnects, a description is delivered once if its key entered the ledger and never otherwise: at most once, and never once recorded. |
| `Properties.RemoteTasksDescriptions` | app/src/main/java/org/appspot/apprtc/FirebaseRTCClient.java:92-97 | A snapshot yields a description task for d iff some peer other than the client lists d. |
| `Properties.CandidateTasksCount` | app/src/main/java/org/appspot/apprtc/FirebaseRTCClient.java:109-122 | Each occurrence of a candidate in a listing yields one task. |
| `Properties.RemoteTasksCandidates` | app/src/main/java/org/appspot/apprtc/FirebaseRTCClient.java:86-122 | A snapshot yields as many tasks for candidate x as x is listed under peers other than the client, with no deduplication. |
| `Properties.NoSelfEcho` | app/src/main/java/org/appspot/apprtc/FirebaseRTCClient.java:92 | A snapshot holding only the client's own record yields no task. |
| `Properties.OwnChildIgnored` | app/src/main/java/org/appspot/apprtc/FirebaseRTCClient.java:89-123 | Wherever the client's own record stands among the other peers' records, removing it leaves the snapshot's tasks unchanged: its own description and candidates are never queued. |
| `Properties.DrainLedger` | app/src/main/java/org/appspot/apprtc/FirebaseRTCClient.java:100-102 | After running all tasks, d's key is in the ledger iff it was before or a task for d was queued. |
| `Properties.DrainDeliveryCount` | app/src/main/java/org/appspot/apprtc/FirebaseRTCClient.java:97-105 | Running all tasks delivers d once if a task for d was queued and its key was not recorded, and never otherwise. |
| `Properties.RunTaskCandidateCount` | app/src/main/java/org/appspot/apprtc/FirebaseRTCClient.java:116-121 | One task delivers candidate x once iff it is a task for x. |
| `Properties.DrainCandidateCount` | app/src/main/java/org/appspot/apprtc/FirebaseRTCClient.java:116-121 | Running all tasks delivers candidate x once per queued task for x, duplicates included. |
| `Properties.DrainIsRun` | app/src/main/java/org/appspot/apprtc/FirebaseRTCClient.java:60-121 | Running every queued task is the run that issues one handler step per queued task. |
| `Properties.RoundsIsRun` | app/src/main/java/org/appspot/apprtc/FirebaseRTCClient.java:51-126 | For a subscribed client, delivering each snapshot and then running the handler to empty is exactly the client run whose schedule is that delivery followed by one handler step per queued task. |
| `Properties.RoundsDeliveryCount` | app/src/main/java/org/appspot/apprtc/FirebaseRTCClient.java:92-105 | For a subscribed client, over any sequence of snapshots each followed by running the handler (a run of the client, by `RoundsIsRun`), d is delivered exactly once if some snapshot lists it under another peer and its key was not recorded, and never otherwise. |
| `Properties.RepeatedDescriptionDeliveredOnce` | app/src/main/java/org/appspot/apprtc/FirebaseRTCClient.java:93-105 | For a subscribed client, the same remote description repeated over n >= 1 snapshots is delivered exactly once (a run of the client, by `RoundsIsRun`). |
| `Properties.ChangedDescriptionDeliveredAgain` | app/src/main/java/org/appspot/apprtc/FirebaseRTCClient.java:93-105 | For a subscribed client, a description that changes between two snapshots (new key) is delivered once per value (a run of the client, by `RoundsIsRun`). |
| `Properties.RoundsCandidateCount` | app/src/main/java/org/appspot/apprtc/FirebaseRTCClient.java:109-122 | For a subscribed client, over any sequence of snapshots (a run of the client, by `RoundsIsRun`), candidate x is delivered once per listing under another peer in every snapshot. |
| `Properties.ListedInRepeated` | app/src/main/java/org/appspot/apprtc/FirebaseRTCClient.java:109-122 | A snapshot repeated n times lists each candidate n times as often. |
| `Properties.RepeatedCandidateDeliveredEachTime` | app/src/main/java/org/appspot/apprtc/FirebaseRTCClient.java:109-122 | For a subscribed client, a snapshot repeated n times delivers each remote candidate n times (a run of the client, by `RoundsIsRun`): candidates are not deduplicated. |
| `Properties.StepWritesOnlyOwnRecord` | app/src/main/java/org/appspot/apprtc/FirebaseRTCClient.java:161-198 | No action changes any record but the client's own, and the room stays free of empty nodes. |
| `Properties.DescriptionSlotOverwritten` | app/src/main/java/org/appspot/apprtc/FirebaseRTCClient.java:161-170 | Offer and answer write the same slot, and the later write wins. |
| `Properties.SendThenRemoveRestores` | app/src/main/java/org/appspot/apprtc/FirebaseRTCClient.java:180-193 | Publishing a candidate under a free key and then retracting it restores the client state exactly. |
| `Properties.RemoveUnknownIsNoOp` | app/src/main/java/org/appspot/apprtc/FirebaseRTCClient.java:186-193 | Retracting an unpublished candidate leaves the client state unchanged. |
| `Properties.FirstPeerAlone` | app/src/main/java/org/appspot/apprtc/FirebaseRTCClient.java:53-80 | A client alone on an empty room reports itself the initiator with the fetched servers, and reports nothing when the TURN request fails. |
| `Properties.SecondPeerJoins` | app/src/main/java/org/appspot/apprtc/FirebaseRTCClient.java:53-80 | A second client that sees the first peer's record reports itself the responder with the fetched servers. |
| `Properties.FirstPeerInitiates` | app/src/main/java/org/appspot/apprtc/FirebaseRTCClient.java:53-80 | On an empty room, the first peer reports connected as initiator and the second as responder. A failed TURN request emits no connected event. |
| `Properties.ConnectIgnoresParams` | app/src/main/java/org/appspot/apprtc/FirebaseRTCClient.java:144-150 | The room id and loopback flag do not affect connecting. |
| `Properties.DisconnectIdempotent` | app/src/main/java/org/appspot/apprtc/FirebaseRTCClient.java:195-202 | Disconnecting twice equals disconnecting once. |
| `Properties.QueuedDescriptionRunsAfterDisconnect` | app/src/main/java/org/appspot/apprtc/FirebaseRTCClient.java:97-105 | A description task queued before a disconnect still runs after it and, the ledger being cleared, delivers again. |
| `SelfEcho.RemoteTasksAsWritten` | app/src/main/java/org/appspot/apprtc/FirebaseRTCClient.java:89-107 | As written, every child whose key is not the very same object as the local id yields a task for its description. |
| `SelfEcho.AsWrittenAgreesWhenIdentityIsEquality` | app/src/main/java/org/appspot/apprtc/FirebaseRTCClient.java:92 | When reference identity coincides with text equality, the code as written and the intended comparison yield the same tasks. |
| `SelfEcho.OwnOfferEchoedAsWritten` | app/src/main/java/org/appspot/apprtc/FirebaseRTCClient.java:92 | With a freshly read key, the client's own offer is queued as a remote description as written, and not with the intended comparison. |

## Left out

- The realtime-database SDK is replaced by the abstract room map. This covers the reference API, the listener registration, `setValue` and `removeValue`. Writes by other peers reach the model only as delivered snapshots. The order of children in a snapshot is taken as given, so every property holds for any delivery order.
- The Android `HandlerThread`/`Handler` is replaced by a serial FIFO queue. Races between `disconnectFromRoom` on the caller's thread and queued tasks are not modelled, and no "no events after disconnect" guarantee is claimed.
- The HTTP request of `requestTurnServers` and `drainStream` is replaced by a fetch result, either a parsed `iceServers` list or a failure. This covers timeouts, the referer header and the non-200 check. JSON parsing errors also fold into the failure.
- `getSdp` and `getIceCandidate` are total projections of a snapshot child. Their null and cast failures are not modelled.
- The candidate hash code is modelled as a key function `key: Candidate -> CandKey` of the candidate's fields. So the model assumes that equal candidates hash equally, i.e. that the WebRTC library's `IceCandidate.hashCode` is value-based. With an identity-based hash code, the candidates passed for removal are different objects from the ones published, so line 191 would remove a different key and delete nothing. Two members describe the program only under this assumption:
- Client.SendLocalIceCandidateRemovals: removes the published entries only if the candidates' hash codes depend on their values, as assumed above.
- Properties.SendThenRemoveRestores: the round trip holds only if the candidates' hash codes depend on their values, as assumed above.
- `Build.SERIAL` is the `serial` parameter. Logging is dropped. The empty `onCancelled` has nothing to model.
- Calls made before `connectToRoom` are not modelled. They would use a null id. The model's state begins at the first `connectToRoom`.
- `SignalingParameters` fields other than the ICE servers and the initiator flag are always null, so they are not modelled.
- Properties.RoundsDeliveryCount: assumes a subscribed client whose handler is idle before the first snapshot and that each snapshot is fully handled before the next; `Properties.RoundsIsRun` shows this schedule is a run of the client, one interleaving of the two threads among those `Client.Run` expresses.
- Properties.RoundsCandidateCount: assumes the same subscribed, idle start and the same full handling of each snapshot before the next.
- Properties.RepeatedDescriptionDeliveredOnce: assumes the same subscribed, idle start and the same full handling of each snapshot before the next.
- Properties.ChangedDescriptionDeliveredAgain: assumes the same subscribed, idle start and the same full handling of each snapshot before the next.
- Properties.RepeatedCandidateDeliveredEachTime: assumes the same subscribed, idle start and the same full handling of each snapshot before the next.

## Findings

| source | as written | input that shows it | evidently intended | confidence | as-written member | corrected member |
|---|---|---|---|---|---|---|
| app/src/main/java/org/appspot/apprtc/FirebaseRTCClient.java:92 | `child.getKey() != myId` compares two String objects by reference | a snapshot whose only child is the client's own record holding its offer, with the key read back as a String object distinct from the serial | skip the child whose key equals the local id by value, so that the client never receives its own description or candidates as remote ones | medium; not executed; depends on whether the database SDK hands back the very object passed as the path | `SelfEcho.RemoteTasksAsWritten` (shown by `SelfEcho.OwnOfferEchoedAsWritten`) | `Client.RemoteTasks` (proved by `Properties.OwnChildIgnored` and `Properties.NoSelfEcho`) |

=== FILE: client.dfy ===
/**
 The signaling client as a pure transition system. The room subscription,
 the serial handler thread and the database writes are made explicit: a
 snapshot delivery is a step that takes the delivered snapshot, the handler
 is a FIFO queue of posted tasks run one at a time, and writes update the
 abstract room store. Every path is under the fixed room node; the room id
 of the connection parameters plays no part.
 */
module Client {
  import opened Types
  import LedgerKey
  import opened RoomStore
  import Turn

  /** The connection parameters the client is given. */
  datatype RoomParams = RoomParams(roomId: string, loopback: bool)

  /** The client's state once `connectToRoom` has assigned its id. */
  datatype State = State(
    myId: PeerId,             // the device serial
    isInitiator: bool,        // the role flag
    sdpAdded: set<string>,    // ledger of delivered description keys
    store: Room,              // the room node, as changed by this client's writes
    subscribed: bool,         // whether the room listener is registered
    queue: seq<Task>,         // tasks posted to the handler, oldest first
    events: seq<Event>)       // callbacks made on the negotiation engine, in order

  /** A newly constructed client connecting to a room whose node holds
      `store`. The loopback flag is only logged, never rejected. */
  function Start(store: Room, params: RoomParams, serial: PeerId): (s: State)
    ensures s.myId == serial && s.subscribed && s.store == store
    ensures !s.isInitiator && s.sdpAdded == {} && s.queue == [] && s.events == []
  {
    State(serial, false, {}, store, true, [], [])
  }

  /** `connectToRoom` on an existing client: takes the serial as its id and
      registers the listener again; the role flag, the ledger and any queued
      tasks are kept. */
  function ConnectToRoom(s: State, params: RoomParams, serial: PeerId): (r: State)
    ensures r.myId == serial && r.subscribed
    ensures r.(myId := s.myId, subscribed := s.subscribed) == s
  {
    s.(myId := serial, subscribed := true)
  }

  /** The room node exists exactly when it has children. */
  predicate Exists(snap: Snapshot): (r: bool)
    ensures !r ==> forall id :: !HasChild(snap, id)
  {
    |snap.children| > 0
  }

  /** The room node exists exactly when some peer is listed in it. */
  lemma ExistsIffSomePeer(snap: Snapshot)
    ensures Exists(snap) <==> exists id :: HasChild(snap, id)
  {
    if Exists(snap) {
      assert HasChild(snap, snap.children[0].id);
    }
  }

  predicate HasChild(snap: Snapshot, id: PeerId) {
    exists i :: 0 <= i < |snap.children| && snap.children[i].id == id
  }

  /** One delivery task per listed candidate, in order. */
  function CandidateTasks(cands: seq<Candidate>): (r: seq<Task>)
    ensures |r| == |cands|
    ensures forall i :: 0 <= i < |r| ==> r[i] == CandidateTask(cands[i])
  {
    if cands == [] then [] else [CandidateTask(cands[0])] + CandidateTasks(cands[1..])
  }

  /** The tasks one peer's child yields: its description, then its candidates. */
  function ChildTasks(child: SnapChild): seq<Task> {
    (if child.sdp.Some? then [SdpTask(child.sdp.value)] else []) + CandidateTasks(child.candidates)
  }

  /** The tasks a snapshot yields for the peers other than `me`, in child
      order; the record of `me` itself yields nothing. */
  function RemoteTasks(children: seq<SnapChild>, me: PeerId): (r: seq<Task>)
    ensures ConnectedTask !in r
  {
    if children == [] then []
    else (if children[0].id != me then ChildTasks(children[0]) else []) + RemoteTasks(children[1..], me)
  }

  /** `onDataChange`: sets the role flag when the room node does not exist;
      when the snapshot lacks this client's id, writes `connected = true`
      under it and posts a connected task; then posts the remote tasks. */
  function OnDataChange(s: State, snap: Snapshot): (r: State)
    ensures r.isInitiator == (s.isInitiator || !Exists(snap))
    ensures r.myId == s.myId && r.subscribed == s.subscribed
    ensures r.sdpAdded == s.sdpAdded && r.events == s.events
    ensures multiset(r.queue)[ConnectedTask] ==
            multiset(s.queue)[ConnectedTask] + (if HasChild(snap, s.myId) then 0 else 1)
    ensures r.queue == s.queue + (if HasChild(snap, s.myId) then [] else [ConnectedTask])
                       + RemoteTasks(snap.children, s.myId)
    ensures HasChild(snap, s.myId) ==> r.store == s.store
    ensures !HasChild(snap, s.myId) ==>
              s.myId in r.store && Record(r.store, s.myId).connected &&
              Record(r.store, s.myId).sdp == Record(s.store, s.myId).sdp &&
              Record(r.store, s.myId).candidates == Record(s.store, s.myId).candidates &&
              OthersUnchanged(s.store, r.store, s.myId)
  {
    var initiator := if !Exists(snap) && !s.isInitiator then true else s.isInitiator;
    var remote := RemoteTasks(snap.children, s.myId);
    if !HasChild(snap, s.myId) then
      s.(isInitiator := initiator,
         store := SetConnected(s.store, s.myId),
         queue := s.queue + [ConnectedTask] + remote)
    else
      s.(isInitiator := initiator, queue := s.queue + remote)
  }

  /** The handler runs the oldest posted task. A connected task fetches the
      TURN servers (`fetch`) and reports the role flag as it is when the task
      runs; a failed fetch drops the event. A description task delivers only
      a description whose key is not in the ledger, then records the key. A
      candidate task always delivers. */
  function RunTask(s: State, fetch: FetchResult): (r: State)
    ensures s.queue == [] ==> r == s
    ensures s.queue != [] ==> r.queue == s.queue[1..]
    ensures r.myId == s.myId && r.isInitiator == s.isInitiator
    ensures r.store == s.store && r.subscribed == s.subscribed
    ensures s.sdpAdded <= r.sdpAdded && s.events <= r.events
    ensures s.queue != [] && s.queue[0].SdpTask? ==>
              var d := s.queue[0].sdp;
              LedgerKey.Key(d) in r.sdpAdded &&
              (LedgerKey.Key(d) !in s.sdpAdded <==> r.events == s.events + [RemoteDescription(d)]) &&
              (LedgerKey.Key(d) in s.sdpAdded <==> r.events == s.events) &&
              r.sdpAdded == s.sdpAdded + {LedgerKey.Key(d)}
    ensures s.queue != [] && s.queue[0].CandidateTask? ==>
              r.events == s.events + [RemoteIceCandidate(s.queue[0].candidate)] &&
              r.sdpAdded == s.sdpAdded
    ensures s.queue != [] && s.queue[0].ConnectedTask? ==>
              r.sdpAdded == s.sdpAdded &&
              (fetch.FetchFailed? ==> r.events == s.events) &&
              (fetch.Fetched? ==>
                 r.events == s.events + [ConnectedToRoom(Turn.Flatten(fetch.entries), s.isInitiator)])
  {
    if s.queue == [] then s
    else
      var rest := s.queue[1..];
      match s.queue[0]
      case ConnectedTask =>
        (match fetch
         case FetchFailed => s.(queue := rest)
         case Fetched(entries) =>
           s.(queue := rest, events := s.events + [ConnectedToRoom(Turn.Flatten(entries), s.isInitiator)]))
      case SdpTask(d) =>
        var key := LedgerKey.Key(d);
        if key !in s.sdpAdded then
          s.(queue := rest, events := s.events + [RemoteDescription(d)], sdpAdded := s.sdpAdded + {key})
        else
          s.(queue := rest)
      case CandidateTask(c) =>
        s.(queue := rest, events := s.events + [RemoteIceCandidate(c)])
  }

  /** The handler runs every posted task, each connected task seeing `fetch`. */
  function Drain(s: State, fetch: FetchResult): (r: State)
    ensures r.queue == []
    ensures r.myId == s.myId && r.isInitiator == s.isInitiator
    ensures r.store == s.store && r.subscribed == s.subscribed
    ensures s.sdpAdded <= r.sdpAdded && s.events <= r.events
    decreases |s.queue|
  {
    if s.queue == [] then s else Drain(RunTask(s, fetch), fetch)
  }

  /** `sendOfferSdp`: overwrites this client's single description slot. No
      connection state is checked. */
  function SendOfferSdp(s: State, d: Sdp): (r: State)
    ensures Record(r.store, s.myId).sdp == Some(d)
    ensures Record(r.store, s.myId).connected == Record(s.store, s.myId).connected
    ensures Record(r.store, s.myId).candidates == Record(s.store, s.myId).candidates
    ensures OthersUnchanged(s.store, r.store, s.myId)
    ensures r.(store := s.store) == s
  {
    s.(store := WriteSdp(s.store, s.myId, d))
  }

  /** `sendAnswerSdp`: writes the same slot, in the same way, as an offer;
      the kind travels inside the description. */
  function SendAnswerSdp(s: State, d: Sdp): (r: State)
    ensures r == SendOfferSdp(s, d)
    ensures Record(r.store, s.myId).sdp == Some(d)
  {
    s.(store := WriteSdp(s.store, s.myId, d))
  }

  /** `sendLocalIceCandidate`: stores the candidate under its key in this
      client's record. */
  function SendLocalIceCandidate(s: State, c: Candidate, key: Candidate -> CandKey): (r: State)
    ensures Record(r.store, s.myId).candidates == Record(s.store, s.myId).candidates[key(c) := c]
    ensures Record(r.store, s.myId).connected == Record(s.store, s.myId).connected
    ensures Record(r.store, s.myId).sdp == Record(s.store, s.myId).sdp
    ensures OthersUnchanged(s.store, r.store, s.myId)
    ensures r.(store := s.store) == s
  {
    s.(store := PutCandidate(s.store, s.myId, key(c), c))
  }

  /** `sendLocalIceCandidateRemovals`: deletes the key of every listed
      candidate from this client's record. */
  function SendLocalIceCandidateRemovals(s: State, cands: seq<Candidate>, key: Candidate -> CandKey): (r: State)
    ensures Record(r.store, s.myId).candidates == Record(s.store, s.myId).candidates - KeysOf(cands, key)
    ensures Record(r.store, s.myId).connected == Record(s.store, s.myId).connected
    ensures Record(r.store, s.myId).sdp == Record(s.store, s.myId).sdp
    ensures OthersUnchanged(s.store, r.store, s.myId)
    ensures r.(store := s.store) == s
  {
    s.(store := RemoveCandidates(s.store, s.myId, cands, key))
  }

  /** `disconnectFromRoom`: deletes this client's record, removes the
      listener and clears the ledger. Queued tasks stay queued and the role
      flag is kept. */
  function DisconnectFromRoom(s: State): (r: State)
    ensures s.myId !in r.store && OthersUnchanged(s.store, r.store, s.myId)
    ensures !r.subscribed && r.sdpAdded == {}
    ensures r.myId == s.myId && r.isInitiator == s.isInitiator
    ensures r.queue == s.queue && r.events == s.events
  {
    s.(store := RemoveRecord(s.store, s.myId), subscribed := false, sdpAdded := {})
  }

  /** The things that can happen to a client. */
  datatype Action =
    | Connect(params: RoomParams, serial: PeerId)
    | Deliver(snap: Snapshot)
    | RunNext(fetch: FetchResult)
    | SendOffer(offer: Sdp)
    | SendAnswer(answer: Sdp)
    | SendCandidate(candidate: Candidate)
    | SendCandidateRemovals(removed: seq<Candidate>)
    | Disconnect

  /** One action. A snapshot reaches the client only while its listener is
      registered. `key` is the candidates' hash code. */
  function Step(s: State, a: Action, key: Candidate -> CandKey): (r: State)
    ensures a.Deliver? && !s.subscribed ==> r == s
    ensures a.Deliver? && s.subscribed ==> r == OnDataChange(s, a.snap)
    ensures a.Connect? ==> r.subscribed
    ensures a.Disconnect? ==> !r.subscribed
    ensures !a.Connect? && !a.Disconnect? ==> r.subscribed == s.subscribed
  {
    match a
    case Connect(params, serial) => ConnectToRoom(s, params, serial)
    case Deliver(snap) => if s.subscribed then OnDataChange(s, snap) else s
    case RunNext(fetch) => RunTask(s, fetch)
    case SendOffer(d) => SendOfferSdp(s, d)
    case SendAnswer(d) => SendAnswerSdp(s, d)
    case SendCandidate(c) => SendLocalIceCandidate(s, c, key)
    case SendCandidateRemovals(cs) => SendLocalIceCandidateRemovals(s, cs, key)
    case Disconnect => DisconnectFromRoom(s)
  }

  /** A sequence of actions, in order. */
  function Run(s: State, actions: seq<Action>, key: Candidate -> CandKey): State
    decreases |actions|
  {
    if actions == [] then s else Run(Step(s, actions[0], key), actions[1..], key)
  }
}

=== FILE: ledger_key.dfy ===
/**
 The key under which a delivered session description is remembered in the
 dedup ledger: the description's type name followed by its text, exactly the
 Java string `sdp.type + sdp.description`.
 */
module LedgerKey {
  import opened Types

  /** The Java enum name of a description type. */
  function KindName(k: SdpType): (r: string)
    ensures |r| > 0
  {
    match k
    case Offer => "OFFER"
    case PrAnswer => "PRANSWER"
    case Answer => "ANSWER"
  }

  function Key(d: Sdp): (r: string)
    ensures KindName(d.kind) <= r
    ensures r[|KindName(d.kind)|..] == d.description
  {
    KindName(d.kind) + d.description
  }

  /** No two distinct descriptions share a ledger key: the three type names
      start with different letters, so the key determines the type, and the
      rest of the key is the text. */
  lemma KeyInjective(a: Sdp, b: Sdp)
    requires Key(a) == Key(b)
    ensures a == b
  {
    assert Key(a)[0] == KindName(a.kind)[0];
    assert Key(b)[0] == KindName(b.kind)[0];
    assert a.kind == b.kind;
  }
}

=== FILE: properties.dfy ===
/**
 Properties of the client over several steps: the role flag and the ledger
 only grow, writes stay in the client's own record, a description is
 delivered at most once per ledger lifetime however often snapshots repeat
 it, candidates are delivered once per listing, and what disconnecting does
 and does not stop.
 */
module Properties {
  import opened Types
  import opened LedgerKey
  import opened RoomStore
  import opened Client
  import Turn

  // ---------------------------------------------------------------------
  // Role flag

  /** The flag becomes true exactly on a delivered snapshot of a room node
      that does not exist, and no step resets it. */
  lemma StepRole(s: State, a: Action, key: Candidate -> CandKey)
    ensures Step(s, a, key).isInitiator == (s.isInitiator || (a.Deliver? && s.subscribed && !Exists(a.snap)))
  {
  }

  lemma {:induction false} RunRoleMonotone(s: State, actions: seq<Action>, key: Candidate -> CandKey)
    requires s.isInitiator
    ensures Run(s, actions, key).isInitiator
    decreases |actions|
  {
    if actions != [] {
      StepRole(s, actions[0], key);
      RunRoleMonotone(Step(s, actions[0], key), actions[1..], key);
    }
  }

  // ---------------------------------------------------------------------
  // Ledger

  /** Only running a task adds to the ledger, only disconnecting empties it. */
  lemma StepLedger(s: State, a: Action, key: Candidate -> CandKey)
    ensures a.Disconnect? ==> Step(s, a, key).sdpAdded == {}
    ensures !a.Disconnect? ==> s.sdpAdded <= Step(s, a, key).sdpAdded
    ensures !a.Disconnect? && !a.RunNext? ==> Step(s, a, key).sdpAdded == s.sdpAdded
  {
  }

  ghost predicate NoDisconnect(actions: seq<Action>) {
    forall i :: 0 <= i < |actions| ==> !actions[i].Disconnect?
  }

  lemma {:induction false} RunLedgerMonotone(s: State, actions: seq<Action>, key: Candidate -> CandKey)
    requires NoDisconnect(actions)
    ensures s.sdpAdded <= Run(s, actions, key).sdpAdded
    decreases |actions|
  {
    if actions != [] {
      StepLedger(s, actions[0], key);
      RunLedgerMonotone(Step(s, actions[0], key), actions[1..], key);
    }
  }

  /** Every ledger key is the key of a description already handed to the
      negotiation engine. */
  ghost predicate LedgerSound(s: State) {
    forall k :: k in s.sdpAdded ==> exists d :: k == Key(d) && RemoteDescription(d) in s.events
  }

  lemma StartLedgerSound(store: Room, params: RoomParams, serial: PeerId)
    ensures LedgerSound(Start(store, params, serial))
  {
  }

  lemma StepPreservesLedgerSound(s: State, a: Action, key: Candidate -> CandKey)
    requires LedgerSound(s)
    ensures LedgerSound(Step(s, a, key))
  {
    var r := Step(s, a, key);
    assert s.events <= r.events;
    forall k | k in r.sdpAdded ensures exists d :: k == Key(d) && RemoteDescription(d) in r.events {
      if k in s.sdpAdded {
        var d :| k == Key(d) && RemoteDescription(d) in s.events;
        assert RemoteDescription(d) in r.events;
      } else {
        assert a.RunNext? && s.queue != [] && s.queue[0].SdpTask?;
        assert RemoteDescription(s.queue[0].sdp) in r.events;
      }
    }
  }

  lemma {:induction false} RunPreservesLedgerSound(s: State, actions: seq<Action>, key: Candidate -> CandKey)
    requires LedgerSound(s)
    ensures LedgerSound(Run(s, actions, key))
    decreases |actions|
  {
    if actions != [] {
      StepPreservesLedgerSound(s, actions[0], key);
      RunPreservesLedgerSound(Step(s, actions[0], key), actions[1..], key);
    }
  }

  // ---------------------------------------------------------------------
  // At most one delivery per description between disconnects

  /** The number of times `d` has been delivered. */
  function Delivered(s: State, d: Sdp): nat {
    multiset(s.events)[RemoteDescription(d)]
  }

  /** Running one task changes the ledger membership of `d` only when that
      task is the description task of `d`. */
  lemma RunTaskLedger(s: State, f: FetchResult, d: Sdp)
    requires s.queue != [] && s.queue[0] != SdpTask(d)
    ensures Key(d) in RunTask(s, f).sdpAdded <==> Key(d) in s.sdpAdded
  {
    if s.queue[0].SdpTask? && Key(s.queue[0].sdp) == Key(d) {
      KeyInjective(s.queue[0].sdp, d);
    }
  }

  /** Running one task delivers `d` once exactly when it puts the key of `d`
      into the ledger, and otherwise not at all. */
  lemma RunTaskDeliveryCount(s: State, f: FetchResult, d: Sdp)
    ensures Delivered(RunTask(s, f), d) ==
            Delivered(s, d) + (if Key(d) in RunTask(s, f).sdpAdded && Key(d) !in s.sdpAdded then 1 else 0)
  {
    var r := RunTask(s, f);
    if s.queue != [] && s.queue[0] != SdpTask(d) {
      RunTaskLedger(s, f, d);
      var e := r.events[|s.events|..];
      assert r.events == s.events + e;
      assert RemoteDescription(d) !in e;
    }
  }

  /** Any step delivers `d` once exactly when it puts the key of `d` into
      the ledger, and otherwise not at all. */
  lemma StepDeliveryCount(s: State, a: Action, key: Candidate -> CandKey, d: Sdp)
    ensures Delivered(Step(s, a, key), d) ==
            Delivered(s, d) + (if Key(d) in Step(s, a, key).sdpAdded && Key(d) !in s.sdpAdded then 1 else 0)
  {
    if a.RunNext? {
      RunTaskDeliveryCount(s, a.fetch, d);
    }
  }

  /** Between disconnects, `d` is delivered once if its key entered the
      ledger in that time and never otherwise; in particular at most once,
      and never again once its key is recorded. */
  lemma {:induction false} RunDeliversAtMostOnce(s: State, actions: seq<Action>, key: Candidate -> CandKey, d: Sdp)
    requires NoDisconnect(actions)
    ensures Delivered(Run(s, actions, key), d) ==
            Delivered(s, d) + (if Key(d) in Run(s, actions, key).sdpAdded && Key(d) !in s.sdpAdded then 1 else 0)
    decreases |actions|
  {
    if actions != [] {
      var s1 := Step(s, actions[0], key);
      StepDeliveryCount(s, actions[0], key, d);
      StepLedger(s, actions[0], key);
      RunDeliversAtMostOnce(s1, actions[1..], key, d);
      RunLedgerMonotone(s1, actions[1..], key);
    }
  }

  // ---------------------------------------------------------------------
  // What a snapshot yields

  /** `snap` lists `d` as the description of a peer other than `me`. */
  ghost predicate Shows(snap: Snapshot, me: PeerId, d: Sdp) {
    exists i :: 0 <= i < |snap.children| && snap.children[i].id != me && snap.children[i].sdp == Some(d)
  }

  lemma {:induction false} RemoteTasksDescriptions(children: seq<SnapChild>, me: PeerId, d: Sdp)
    ensures SdpTask(d) in RemoteTasks(children, me) <==> Shows(Snapshot(children), me, d)
    decreases |children|
  {
    if children != [] {
      var c := children[0];
      RemoteTasksDescriptions(children[1..], me, d);
      assert SdpTask(d) !in CandidateTasks(c.candidates);
      if Shows(Snapshot(children[1..]), me, d) {
        var i :| 0 <= i < |children[1..]| && children[1..][i].id != me && children[1..][i].sdp == Some(d);
        assert children[i + 1] == children[1..][i];
      }
      if Shows(Snapshot(children), me, d) && !(c.id != me && c.sdp == Some(d)) {
        var i :| 0 <= i < |children| && children[i].id != me && children[i].sdp == Some(d);
        assert i > 0 && children[1..][i - 1] == children[i];
      }
    }
  }

  /** How often candidate `x` is listed under peers other than `me`. */
  function Listed(children: seq<SnapChild>, me: PeerId, x: Candidate): nat {
    if children == [] then 0
    else (if children[0].id != me then multiset(children[0].candidates)[x] else 0) + Listed(children[1..], me, x)
  }

  lemma {:induction false} CandidateTasksCount(cands: seq<Candidate>, x: Candidate)
    ensures multiset(CandidateTasks(cands))[CandidateTask(x)] == multiset(cands)[x]
    decreases |cands|
  {
    if cands != [] {
      CandidateTasksCount(cands[1..], x);
      assert cands == [cands[0]] + cands[1..];
    }
  }

  /** One candidate task per listing of a candidate under another peer, with
      no deduplication. */
  lemma {:induction false} RemoteTasksCandidates(children: seq<SnapChild>, me: PeerId, x: Candidate)
    ensures multiset(RemoteTasks(children, me))[CandidateTask(x)] == Listed(children, me, x)
    decreases |children|
  {
    if children != [] {
      CandidateTasksCount(children[0].candidates, x);
      RemoteTasksCandidates(children[1..], me, x);
    }
  }

  /** The client's own record never yields a task: its own description and
      candidates are not echoed back as remote ones. */
  lemma {:induction false} NoSelfEcho(children: seq<SnapChild>, me: PeerId)
    requires forall i :: 0 <= i < |children| ==> children[i].id == me
    ensures RemoteTasks(children, me) == []
    decreases |children|
  {
    if children != [] {
      NoSelfEcho(children[1..], me);
    }
  }

  /** One unfolding of `RemoteTasks` on a list with a given first child. */
  lemma RemoteTasksCons(head: SnapChild, tail: seq<SnapChild>, me: PeerId)
    ensures RemoteTasks([head] + tail, me) ==
            (if head.id != me then ChildTasks(head) else []) + RemoteTasks(tail, me)
  {
    assert ([head] + tail)[0] == head;
    assert ([head] + tail)[1..] == tail;
  }

  /** The client's own record contributes nothing wherever it stands among
      the other peers' records: removing it leaves the tasks unchanged. */
  lemma {:induction false} OwnChildIgnored(pre: seq<SnapChild>, own: SnapChild, post: seq<SnapChild>, me: PeerId)
    requires own.id == me
    ensures RemoteTasks(pre + [own] + post, me) == RemoteTasks(pre + post, me)
    decreases |pre|
  {
    if pre == [] {
      assert pre + [own] + post == [own] + post;
      assert pre + post == post;
      RemoteTasksCons(own, post, me);
    } else {
      var first, rest := pre[0], pre[1..];
      assert pre == [first] + rest;
      assert pre + [own] + post == [first] + (rest + [own] + post);
      assert pre + post == [first] + (rest + post);
      RemoteTasksCons(first, rest + [own] + post, me);
      RemoteTasksCons(first, rest + post, me);
      OwnChildIgnored(rest, own, post, me);
      var h := if first.id != me then ChildTasks(first) else [];
      assert RemoteTasks(pre + [own] + post, me) == h + RemoteTasks(rest + [own] + post, me);
      assert RemoteTasks(pre + post, me) == h + RemoteTasks(rest + post, me);
    }
  }

  // ---------------------------------------------------------------------
  // Running the handler

  lemma {:induction false} DrainLedger(s: State, f: FetchResult, d: Sdp)
    ensures Key(d) in Drain(s, f).sdpAdded <==> Key(d) in s.sdpAdded || SdpTask(d) in s.queue
    decreases |s.queue|
  {
    if s.queue != [] {
      var s1 := RunTask(s, f);
      assert Drain(s, f) == Drain(s1, f);
      DrainLedger(s1, f, d);
      assert s.queue == [s.queue[0]] + s1.queue;
      if s.queue[0] != SdpTask(d) {
        RunTaskLedger(s, f, d);
      }
    }
  }

  /** Running all queued tasks delivers `d` once if a description task for it
      is queued and its key is not yet in the ledger, and never otherwise. */
  lemma {:induction false} DrainDeliveryCount(s: State, f: FetchResult, d: Sdp)
    ensures Delivered(Drain(s, f), d) ==
            Delivered(s, d) + (if Key(d) !in s.sdpAdded && SdpTask(d) in s.queue then 1 else 0)
    decreases |s.queue|
  {
    if s.queue != [] {
      var s1 := RunTask(s, f);
      assert Drain(s, f) == Drain(s1, f);
      DrainDeliveryCount(s1, f, d);
      RunTaskDeliveryCount(s, f, d);
      assert s.queue == [s.queue[0]] + s1.queue;
      if s.queue[0] != SdpTask(d) {
        RunTaskLedger(s, f, d);
        assert SdpTask(d) in s.queue <==> SdpTask(d) in s1.queue;
      }
    }
  }

  /** The number of times candidate `x` has been delivered. */
  function CandidateDeliveries(s: State, x: Candidate): nat {
    multiset(s.events)[RemoteIceCandidate(x)]
  }

  lemma RunTaskCandidateCount(s: State, f: FetchResult, x: Candidate)
    requires s.queue != []
    ensures CandidateDeliveries(RunTask(s, f), x) ==
            CandidateDeliveries(s, x) + (if s.queue[0] == CandidateTask(x) then 1 else 0)
  {
    var r := RunTask(s, f);
    if s.queue[0] != CandidateTask(x) {
      var e := r.events[|s.events|..];
      assert r.events == s.events + e;
      assert RemoteIceCandidate(x) !in e;
    }
  }

  /** Every queued candidate task delivers, duplicates included. */
  lemma {:induction false} DrainCandidateCount(s: State, f: FetchResult, x: Candidate)
    ensures CandidateDeliveries(Drain(s, f), x) ==
            CandidateDeliveries(s, x) + multiset(s.queue)[CandidateTask(x)]
    decreases |s.queue|
  {
    if s.queue != [] {
      var s1 := RunTask(s, f);
      assert Drain(s, f) == Drain(s1, f);
      DrainCandidateCount(s1, f, x);
      RunTaskCandidateCount(s, f, x);
      assert s.queue == [s.queue[0]] + s1.queue;
    }
  }

  // ---------------------------------------------------------------------
  // Snapshots delivered over time

  /** Each snapshot in turn is delivered and the handler then runs every
      queued task. */
  function Rounds(s: State, snaps: seq<Snapshot>, f: FetchResult): (r: State)
    ensures r.myId == s.myId && r.subscribed == s.subscribed
    decreases |snaps|
  {
    if snaps == [] then s else Rounds(Drain(OnDataChange(s, snaps[0]), f), snaps[1..], f)
  }

  /** The actions that make up `Rounds`: each snapshot is delivered and then
      one `RunNext` is issued per task it left in the queue. */
  function RoundActions(s: State, snaps: seq<Snapshot>, f: FetchResult): seq<Action>
    decreases |snaps|
  {
    if snaps == [] then []
    else
      var s0 := OnDataChange(s, snaps[0]);
      [Deliver(snaps[0])] + seq(|s0.queue|, _ => RunNext(f)) + RoundActions(Drain(s0, f), snaps[1..], f)
  }

  /** Running two schedules back to back is running their concatenation. */
  lemma {:induction false} RunAppend(s: State, a: seq<Action>, b: seq<Action>, key: Candidate -> CandKey)
    ensures Run(s, a + b, key) == Run(Run(s, a, key), b, key)
    decreases |a|
  {
    if a == [] {
      assert a + b == b;
    } else {
      assert (a + b)[0] == a[0];
      assert (a + b)[1..] == a[1..] + b;
      RunAppend(Step(s, a[0], key), a[1..], b, key);
    }
  }

  /** Draining the queue is the run that issues one `RunNext` per queued
      task. */
  lemma {:induction false} DrainIsRun(s: State, f: FetchResult, key: Candidate -> CandKey)
    ensures Drain(s, f) == Run(s, seq(|s.queue|, _ => RunNext(f)), key)
    decreases |s.queue|
  {
    var acts := seq(|s.queue|, _ => RunNext(f));
    if s.queue != [] {
      var s1 := RunTask(s, f);
      assert acts[0] == RunNext(f);
      assert acts[1..] == seq(|s1.queue|, _ => RunNext(f));
      DrainIsRun(s1, f, key);
    }
  }

  /** For a subscribed client, `Rounds` is a run of the client: the schedule
      `RoundActions` drives `Step` to the same state. */
  lemma {:induction false} RoundsIsRun(s: State, snaps: seq<Snapshot>, f: FetchResult, key: Candidate -> CandKey)
    requires s.subscribed
    ensures Rounds(s, snaps, f) == Run(s, RoundActions(s, snaps, f), key)
    decreases |snaps|
  {
    if snaps != [] {
      var s0 := OnDataChange(s, snaps[0]);
      var s1 := Drain(s0, f);
      var drain := seq(|s0.queue|, _ => RunNext(f));
      var rest := RoundActions(s1, snaps[1..], f);
      assert RoundActions(s, snaps, f) == [Deliver(snaps[0])] + drain + rest;
      RunAppend(s, [Deliver(snaps[0])] + drain, rest, key);
      RunAppend(s, [Deliver(snaps[0])], drain, key);
      assert Run(s, [Deliver(snaps[0])], key) == s0 by {
        assert [Deliver(snaps[0])][1..] == [];
      }
      DrainIsRun(s0, f, key);
      RoundsIsRun(s1, snaps[1..], f, key);
    }
  }

  ghost predicate ShownIn(snaps: seq<Snapshot>, me: PeerId, d: Sdp) {
    exists k :: 0 <= k < |snaps| && Shows(snaps[k], me, d)
  }

  /** Starting from an idle, subscribed handler, over any sequence of snapshots, `d` is
      delivered exactly once if some snapshot carries it under another peer
      and its key was not in the ledger, and never otherwise. */
  lemma {:induction false} RoundsDeliveryCount(s: State, snaps: seq<Snapshot>, f: FetchResult, d: Sdp)
    requires s.queue == [] && s.subscribed
    ensures Delivered(Rounds(s, snaps, f), d) ==
            Delivered(s, d) + (if Key(d) !in s.sdpAdded && ShownIn(snaps, s.myId, d) then 1 else 0)
    decreases |snaps|
  {
    if snaps != [] {
      var s0 := OnDataChange(s, snaps[0]);
      var s1 := Drain(s0, f);
      RemoteTasksDescriptions(snaps[0].children, s.myId, d);
      assert SdpTask(d) in s0.queue <==> Shows(snaps[0], s.myId, d);
      DrainDeliveryCount(s0, f, d);
      DrainLedger(s0, f, d);
      RoundsDeliveryCount(s1, snaps[1..], f, d);
      assert Rounds(s, snaps, f) == Rounds(s1, snaps[1..], f);
      assert s1.queue == [] && s1.myId == s.myId && s0.sdpAdded == s.sdpAdded;
      assert ShownIn(snaps, s.myId, d) <==> Shows(snaps[0], s.myId, d) || ShownIn(snaps[1..], s.myId, d) by {
        if ShownIn(snaps[1..], s.myId, d) {
          var k :| 0 <= k < |snaps[1..]| && Shows(snaps[1..][k], s.myId, d);
          assert snaps[k + 1] == snaps[1..][k];
        }
        if ShownIn(snaps, s.myId, d) && !Shows(snaps[0], s.myId, d) {
          var k :| 0 <= k < |snaps| && Shows(snaps[k], s.myId, d);
          assert k > 0 && snaps[1..][k - 1] == snaps[k];
        }
      }
    }
  }

  /** The same remote description repeated across n >= 1 snapshots is
      delivered exactly once. */
  lemma RepeatedDescriptionDeliveredOnce(s: State, snap: Snapshot, n: nat, f: FetchResult, d: Sdp)
    requires s.queue == [] && s.subscribed && n >= 1 && Key(d) !in s.sdpAdded && Shows(snap, s.myId, d)
    ensures Delivered(Rounds(s, seq(n, _ => snap), f), d) == Delivered(s, d) + 1
  {
    var snaps := seq(n, _ => snap);
    assert Shows(snaps[0], s.myId, d);
    RoundsDeliveryCount(s, snaps, f, d);
  }

  /** A description that changes between snapshots is delivered once per
      value. */
  lemma ChangedDescriptionDeliveredAgain(s: State, snap1: Snapshot, snap2: Snapshot, f: FetchResult, d1: Sdp, d2: Sdp)
    requires s.queue == [] && s.subscribed && Key(d1) !in s.sdpAdded && Key(d2) !in s.sdpAdded
    requires Shows(snap1, s.myId, d1) && Shows(snap2, s.myId, d2)
    ensures Delivered(Rounds(s, [snap1, snap2], f), d1) == Delivered(s, d1) + 1
    ensures Delivered(Rounds(s, [snap1, snap2], f), d2) == Delivered(s, d2) + 1
  {
    var snaps := [snap1, snap2];
    assert Shows(snaps[0], s.myId, d1);
    assert Shows(snaps[1], s.myId, d2);
    RoundsDeliveryCount(s, snaps, f, d1);
    RoundsDeliveryCount(s, snaps, f, d2);
  }

  /** Starting from an idle, subscribed handler, over a sequence of snapshots, candidate
      `x` is delivered once per listing in every snapshot. */
  lemma {:induction false} RoundsCandidateCount(s: State, snaps: seq<Snapshot>, f: FetchResult, x: Candidate)
    requires s.queue == [] && s.subscribed
    ensures CandidateDeliveries(Rounds(s, snaps, f), x) ==
            CandidateDeliveries(s, x) + ListedIn(snaps, s.myId, x)
    decreases |snaps|
  {
    if snaps != [] {
      var s0 := OnDataChange(s, snaps[0]);
      var s1 := Drain(s0, f);
      RemoteTasksCandidates(snaps[0].children, s.myId, x);
      assert multiset(s0.queue)[CandidateTask(x)] == Listed(snaps[0].children, s.myId, x);
      DrainCandidateCount(s0, f, x);
      RoundsCandidateCount(s1, snaps[1..], f, x);
      assert Rounds(s, snaps, f) == Rounds(s1, snaps[1..], f);
      assert s1.queue == [] && s1.myId == s.myId;
    }
  }

  function ListedIn(snaps: seq<Snapshot>, me: PeerId, x: Candidate): nat {
    if snaps == [] then 0 else Listed(snaps[0].children, me, x) + ListedIn(snaps[1..], me, x)
  }

  lemma {:induction false} ListedInRepeated(snap: Snapshot, n: nat, me: PeerId, x: Candidate)
    ensures ListedIn(seq(n, _ => snap), me, x) == n * Listed(snap.children, me, x)
  {
    if n > 0 {
      assert seq(n, _ => snap)[1..] == seq(n - 1, _ => snap);
      ListedInRepeated(snap, n - 1, me, x);
    }
  }

  /** Candidates are not deduplicated: a snapshot repeated n times delivers
      each of its remote candidates n times. */
  lemma RepeatedCandidateDeliveredEachTime(s: State, snap: Snapshot, n: nat, f: FetchResult, x: Candidate)
    requires s.queue == [] && s.subscribed
    ensures CandidateDeliveries(Rounds(s, seq(n, _ => snap), f), x) ==
            CandidateDeliveries(s, x) + n * Listed(snap.children, s.myId, x)
  {
    RoundsCandidateCount(s, seq(n, _ => snap), f, x);
    ListedInRepeated(snap, n, s.myId, x);
  }

  // ---------------------------------------------------------------------
  // Writes

  /** Whatever happens, the room changes only in the client's own record,
      and stays well formed. */
  lemma StepWritesOnlyOwnRecord(s: State, a: Action, key: Candidate -> CandKey)
    ensures OthersUnchanged(s.store, Step(s, a, key).store, s.myId)
    ensures WellFormed(s.store) ==> WellFormed(Step(s, a, key).store)
  {
  }

  /** An offer and an answer share one slot: the later write wins. */
  lemma DescriptionSlotOverwritten(s: State, d1: Sdp, d2: Sdp)
    ensures SendOfferSdp(s, d1) == SendAnswerSdp(s, d1)
    ensures SendOfferSdp(SendAnswerSdp(s, d1), d2) == SendOfferSdp(s, d2)
    ensures SendAnswerSdp(SendOfferSdp(s, d1), d2) == SendAnswerSdp(s, d2)
  {
  }

  /** Publishing a candidate whose key was free and then retracting it
      restores the room. */
  lemma SendThenRemoveRestores(s: State, c: Candidate, key: Candidate -> CandKey)
    requires WellFormed(s.store) && key(c) !in Record(s.store, s.myId).candidates
    ensures SendLocalIceCandidateRemovals(SendLocalIceCandidate(s, c, key), [c], key) == s
  {
    PutThenRemoveRestores(s.store, s.myId, c, key);
  }

  /** Retracting a candidate that is not published changes nothing. */
  lemma RemoveUnknownIsNoOp(s: State, c: Candidate, key: Candidate -> CandKey)
    requires key(c) !in Record(s.store, s.myId).candidates
    ensures SendLocalIceCandidateRemovals(s, [c], key) == s
  {
    RemoveAbsentIsNoOp(s.store, s.myId, c, key);
  }

  // ---------------------------------------------------------------------
  // Roles

  /** The first peer, on an empty room, reports itself the initiator once
      the TURN servers arrive, and reports nothing if the request fails. */
  lemma FirstPeerAlone(params: RoomParams, a: PeerId, f: FetchResult)
    ensures Drain(OnDataChange(Start(map[], params, a), Snapshot([])), f).events ==
            (if f.Fetched? then [ConnectedToRoom(Turn.Flatten(f.entries), true)] else [])
  {
    var sa := OnDataChange(Start(map[], params, a), Snapshot([]));
    assert sa.queue == [ConnectedTask];
    assert sa.isInitiator;
    var s1 := RunTask(sa, f);
    assert s1.queue == [];
    assert Drain(sa, f) == Drain(s1, f) == s1;
  }

  /** The second peer sees the first peer's record and reports itself the
      responder. */
  lemma SecondPeerJoins(params: RoomParams, a: PeerId, b: PeerId, entries: seq<TurnEntry>)
    requires a != b
    ensures Drain(OnDataChange(Start(map[a := PeerRecord(true, None, map[])], params, b),
                               Snapshot([SnapChild(a, true, None, [])])), Fetched(entries)).events ==
            [ConnectedToRoom(Turn.Flatten(entries), false)]
  {
    var snap := Snapshot([SnapChild(a, true, None, [])]);
    var sb := OnDataChange(Start(map[a := PeerRecord(true, None, map[])], params, b), snap);
    assert Exists(snap);
    assert !HasChild(snap, b);
    assert RemoteTasks(snap.children, b) == [] by {
      assert ChildTasks(snap.children[0]) == [];
      assert snap.children[1..] == [];
    }
    assert sb.queue == [ConnectedTask];
    assert !sb.isInitiator;
    var s1 := RunTask(sb, Fetched(entries));
    assert s1.queue == [];
    assert Drain(sb, Fetched(entries)) == Drain(s1, Fetched(entries)) == s1;
  }

  /** The first peer sees no room node and becomes the initiator; the
      second sees the first peer's record and stays the responder. A failed
      TURN request suppresses the connected event altogether. */
  lemma FirstPeerInitiates(params: RoomParams, a: PeerId, b: PeerId, entries: seq<TurnEntry>)
    requires a != b
    ensures Drain(OnDataChange(Start(map[], params, a), Snapshot([])), Fetched(entries)).events ==
            [ConnectedToRoom(Turn.Flatten(entries), true)]
    ensures Drain(OnDataChange(Start(map[], params, a), Snapshot([])), FetchFailed).events == []
    ensures Drain(OnDataChange(Start(map[a := PeerRecord(true, None, map[])], params, b),
                               Snapshot([SnapChild(a, true, None, [])])), Fetched(entries)).events ==
            [ConnectedToRoom(Turn.Flatten(entries), false)]
  {
    FirstPeerAlone(params, a, Fetched(entries));
    FirstPeerAlone(params, a, FetchFailed);
    SecondPeerJoins(params, a, b, entries);
  }

  // ---------------------------------------------------------------------
  // Connecting and disconnecting

  /** The room id and the loopback flag make no difference. */
  lemma ConnectIgnoresParams(s: State, p1: RoomParams, p2: RoomParams, serial: PeerId)
    ensures ConnectToRoom(s, p1, serial) == ConnectToRoom(s, p2, serial)
  {
  }

  /** Disconnecting twice is the same as disconnecting once. */
  lemma DisconnectIdempotent(s: State)
    ensures DisconnectFromRoom(DisconnectFromRoom(s)) == DisconnectFromRoom(s)
  {
  }

  /** Disconnecting does not stop a queued description task: with the ledger
      cleared it delivers again, even a description delivered before. */
  lemma QueuedDescriptionRunsAfterDisconnect(s: State, d: Sdp, f: FetchResult)
    requires s.queue != [] && s.queue[0] == SdpTask(d)
    ensures RunTask(DisconnectFromRoom(s), f).events == s.events + [RemoteDescription(d)]
  {
  }
}

=== FILE: room_store.dfy ===
/**
 The room node `/channels/firebase` of the realtime database, as an abstract
 map from peer id to peer record, with the writes and deletions the client
 issues against it. As in the database, a node with no children does not
 exist: a record whose flag is false and which has neither a description nor
 a candidate is absent from the map.
 */
module RoomStore {
  import opened Types

  /** The record of a peer that has not written anything. */
  const Empty := PeerRecord(false, None, map[])

  /** A record that holds at least one child and so exists in the database. */
  predicate Present(rec: PeerRecord) {
    rec.connected || rec.sdp.Some? || rec.candidates != map[]
  }

  /** The room contains no empty node. */
  ghost predicate WellFormed(room: Room) {
    forall id :: id in room ==> Present(room[id])
  }

  /** What reading `<room>/<id>` yields: the record, or the empty one. */
  function Record(room: Room, id: PeerId): (rec: PeerRecord)
    ensures id !in room ==> rec == Empty
    ensures WellFormed(room) ==> (id in room <==> Present(rec))
  {
    if id in room then room[id] else Empty
  }

  /** Every record except that of `id` is the same in both rooms. */
  ghost predicate OthersUnchanged(a: Room, b: Room, id: PeerId) {
    forall other :: other != id ==> (other in a <==> other in b) && (other in a ==> a[other] == b[other])
  }

  /** Overwrites the whole record of `id`; an empty record removes the node. */
  function Put(room: Room, id: PeerId, rec: PeerRecord): (r: Room)
    ensures Record(r, id) == rec
    ensures id in r <==> Present(rec)
    ensures OthersUnchanged(room, r, id)
    ensures WellFormed(room) ==> WellFormed(r)
  {
    if Present(rec) then room[id := rec] else room - {id}
  }

  /** `<id>/connected := true`. */
  function SetConnected(room: Room, id: PeerId): (r: Room)
    ensures id in r && Record(r, id).connected
    ensures Record(r, id).sdp == Record(room, id).sdp
    ensures Record(r, id).candidates == Record(room, id).candidates
    ensures OthersUnchanged(room, r, id)
    ensures WellFormed(room) ==> WellFormed(r)
  {
    Put(room, id, Record(room, id).(connected := true))
  }

  /** `<id>/sdp := d`: there is a single description slot per peer. */
  function WriteSdp(room: Room, id: PeerId, d: Sdp): (r: Room)
    ensures id in r && Record(r, id).sdp == Some(d)
    ensures Record(r, id).connected == Record(room, id).connected
    ensures Record(r, id).candidates == Record(room, id).candidates
    ensures OthersUnchanged(room, r, id)
    ensures WellFormed(room) ==> WellFormed(r)
  {
    Put(room, id, Record(room, id).(sdp := Some(d)))
  }

  /** `<id>/icecandidate/<k> := c`. */
  function PutCandidate(room: Room, id: PeerId, k: CandKey, c: Candidate): (r: Room)
    ensures id in r
    ensures Record(r, id).candidates == Record(room, id).candidates[k := c]
    ensures Record(r, id).connected == Record(room, id).connected
    ensures Record(r, id).sdp == Record(room, id).sdp
    ensures OthersUnchanged(room, r, id)
    ensures WellFormed(room) ==> WellFormed(r)
  {
    var rec := Record(room, id);
    assert k in rec.candidates[k := c];
    Put(room, id, rec.(candidates := rec.candidates[k := c]))
  }

  /** `<id>/icecandidate/<k>` removed; removing an absent key changes nothing. */
  function RemoveCandidate(room: Room, id: PeerId, k: CandKey): (r: Room)
    ensures Record(r, id).candidates == Record(room, id).candidates - {k}
    ensures Record(r, id).connected == Record(room, id).connected
    ensures Record(r, id).sdp == Record(room, id).sdp
    ensures k !in Record(room, id).candidates ==> r == room
    ensures OthersUnchanged(room, r, id)
    ensures WellFormed(room) ==> WellFormed(r)
  {
    var rec := Record(room, id);
    if k in rec.candidates then Put(room, id, rec.(candidates := rec.candidates - {k}))
    else room
  }

  /** The keys of a list of candidates. */
  function KeysOf(cands: seq<Candidate>, key: Candidate -> CandKey): set<CandKey> {
    set i | 0 <= i < |cands| :: key(cands[i])
  }

  /** Removes `<id>/icecandidate/key(c)` for each listed candidate, in order. */
  function RemoveCandidates(room: Room, id: PeerId, cands: seq<Candidate>, key: Candidate -> CandKey): (r: Room)
    ensures Record(r, id).candidates == Record(room, id).candidates - KeysOf(cands, key)
    ensures Record(r, id).connected == Record(room, id).connected
    ensures Record(r, id).sdp == Record(room, id).sdp
    ensures OthersUnchanged(room, r, id)
    ensures WellFormed(room) ==> WellFormed(r)
    decreases |cands|
  {
    if cands == [] then room
    else
      var next := RemoveCandidate(room, id, key(cands[0]));
      var r := RemoveCandidates(next, id, cands[1..], key);
      assert KeysOf(cands, key) == {key(cands[0])} + KeysOf(cands[1..], key) by {
        forall k | k in KeysOf(cands, key) ensures k in {key(cands[0])} + KeysOf(cands[1..], key) {
          var i :| 0 <= i < |cands| && key(cands[i]) == k;
          if i > 0 { assert cands[1..][i - 1] == cands[i]; }
        }
      }
      r
  }

  /** The whole node `<id>` removed. */
  function RemoveRecord(room: Room, id: PeerId): (r: Room)
    ensures id !in r
    ensures OthersUnchanged(room, r, id)
    ensures WellFormed(room) ==> WellFormed(r)
  {
    room - {id}
  }

  /** In a well-formed room the record view determines the room. */
  lemma RecordsDetermineRoom(a: Room, b: Room)
    requires WellFormed(a) && WellFormed(b)
    requires forall id :: Record(a, id) == Record(b, id)
    ensures a == b
  {
    forall id ensures (id in a <==> id in b) && (id in a ==> a[id] == b[id]) {
      assert Record(a, id) == Record(b, id);
    }
  }

  /** Removing a candidate that is not published changes nothing. */
  lemma RemoveAbsentIsNoOp(room: Room, id: PeerId, c: Candidate, key: Candidate -> CandKey)
    requires key(c) !in Record(room, id).candidates
    ensures RemoveCandidates(room, id, [c], key) == room
  {
    assert RemoveCandidates(room, id, [c], key) == RemoveCandidates(RemoveCandidate(room, id, key(c)), id, [], key);
  }

  /** Publishing a candidate whose key was free and then retracting it gives
      back the room exactly, including an absent record staying absent. */
  lemma PutThenRemoveRestores(room: Room, id: PeerId, c: Candidate, key: Candidate -> CandKey)
    requires WellFormed(room)
    requires key(c) !in Record(room, id).candidates
    ensures RemoveCandidates(PutCandidate(room, id, key(c), c), id, [c], key) == room
  {
    var r := RemoveCandidates(PutCandidate(room, id, key(c), c), id, [c], key);
    assert KeysOf([c], key) == {key(c)};
    assert Record(room, id).candidates[key(c) := c] - {key(c)} == Record(room, id).candidates;
    forall other ensures Record(r, other) == Record(room, other) {
      if other != id {
        assert other in r <==> other in room;
      }
    }
    RecordsDetermineRoom(r, room);
  }
}

=== FILE: self_echo.dfy ===
/**
 The loop over the room's children in `onDataChange` means to skip the
 client's own record, but it compares the child's key with the client's id
 using `!=` on two Java String objects, which is reference comparison. A
 key read back from the database is in general a different object from the
 device serial, so the comparison says "different" even when the text is
 equal, and the client's own description and candidates are queued as if a
 remote peer had sent them. `Client.RemoteTasks` is the value comparison
 the code evidently intends; this module models the comparison as written.
 */
module SelfEcho {
  import opened Types
  import Client
  import Properties

  /** The tasks a snapshot yields as written: a child is skipped only when
      its key is the very object held as the client's id, which
      `identical` decides for each key. */
  function RemoteTasksAsWritten(children: seq<SnapChild>, identical: PeerId -> bool): (r: seq<Task>)
    ensures forall i :: 0 <= i < |children| && !identical(children[i].id) && children[i].sdp.Some? ==>
              SdpTask(children[i].sdp.value) in r
    decreases |children|
  {
    if children == [] then []
    else
      var rest := RemoteTasksAsWritten(children[1..], identical);
      assert forall i :: 1 <= i < |children| ==> children[i] == children[1..][i - 1];
      (if !identical(children[0].id) then Client.ChildTasks(children[0]) else []) + rest
  }

  /** When reference identity coincides with text equality, the code as
      written and the intended comparison agree. */
  lemma {:induction false} AsWrittenAgreesWhenIdentityIsEquality(children: seq<SnapChild>, me: PeerId, identical: PeerId -> bool)
    requires forall k :: identical(k) == (k == me)
    ensures RemoteTasksAsWritten(children, identical) == Client.RemoteTasks(children, me)
    decreases |children|
  {
    if children != [] {
      AsWrittenAgreesWhenIdentityIsEquality(children[1..], me, identical);
    }
  }

  /** The discrepancy: a snapshot holding only the client's own record, with
      its own offer, read back as a fresh String key. As written, the
      client's own offer is queued for delivery as a remote description;
      with the intended comparison nothing is queued. */
  lemma OwnOfferEchoedAsWritten(me: PeerId, d: Sdp)
    ensures SdpTask(d) in RemoteTasksAsWritten([SnapChild(me, true, Some(d), [])], k => false)
    ensures Client.RemoteTasks([SnapChild(me, true, Some(d), [])], me) == []
  {
    Properties.NoSelfEcho([SnapChild(me, true, Some(d), [])], me);
  }
}

=== FILE: turn.dfy ===
/**
 Flattening of the TURN configuration response into the list of ICE servers
 passed to the negotiation engine: every url of every `iceServers` entry
 becomes one server, carrying that entry's username and credential, each
 defaulting to the empty string when the entry has none. The HTTP request
 and JSON parsing are not modelled; the response arrives already parsed.
 */
module Turn {
  import opened Types

  /** A string field of an entry, or "" when the entry lacks it. */
  function FieldOrEmpty(field: Option<string>): (r: string)
    ensures field.Some? ==> r == field.value
    ensures field.None? ==> r == ""
  {
    if field.Some? then field.value else ""
  }

  /** The server that url `u` of entry `e` becomes. */
  function ServerFor(e: TurnEntry, u: string): IceServer {
    IceServer(u, FieldOrEmpty(e.username), FieldOrEmpty(e.credential))
  }

  /** The servers one entry contributes, in url order. */
  function Expand(e: TurnEntry): seq<IceServer> {
    seq(|e.urls|, j requires 0 <= j < |e.urls| => ServerFor(e, e.urls[j]))
  }

  /** The total number of urls over all entries. */
  function UrlCount(entries: seq<TurnEntry>): nat {
    if entries == [] then 0 else |entries[0].urls| + UrlCount(entries[1..])
  }

  /** The server list the client builds: entries in order, urls in order. */
  function Flatten(entries: seq<TurnEntry>): (r: seq<IceServer>)
    ensures |r| == UrlCount(entries)
  {
    if entries == [] then [] else Expand(entries[0]) + Flatten(entries[1..])
  }

  /** Flattening distributes over concatenation of responses. */
  lemma {:induction false} FlattenAppend(a: seq<TurnEntry>, b: seq<TurnEntry>)
    ensures Flatten(a + b) == Flatten(a) + Flatten(b)
  {
    if a == [] {
      assert a + b == b;
    } else {
      assert (a + b)[1..] == a[1..] + b;
      FlattenAppend(a[1..], b);
    }
  }

  /** Position `UrlCount(entries[..i]) + j` of the list holds url `j` of
      entry `i`, with that entry's username and credential: one server per
      (entry, url) pair, in order. */
  lemma FlattenAt(entries: seq<TurnEntry>, i: int, j: int)
    requires 0 <= i < |entries| && 0 <= j < |entries[i].urls|
    ensures UrlCount(entries[..i]) + j < |Flatten(entries)|
    ensures Flatten(entries)[UrlCount(entries[..i]) + j] == ServerFor(entries[i], entries[i].urls[j])
  {
    assert entries == entries[..i] + ([entries[i]] + entries[i + 1..]);
    FlattenAppend(entries[..i], [entries[i]] + entries[i + 1..]);
    FlattenAppend([entries[i]], entries[i + 1..]);
    assert Flatten([entries[i]]) == Expand(entries[i]);
  }

  /** Every server of the list comes from some url of some entry. */
  lemma {:induction false} FlattenFrom(entries: seq<TurnEntry>, n: int)
    requires 0 <= n < |Flatten(entries)|
    ensures exists i, j :: 0 <= i < |entries| && 0 <= j < |entries[i].urls| &&
              Flatten(entries)[n] == ServerFor(entries[i], entries[i].urls[j])
  {
    var e := entries[0];
    if n < |e.urls| {
      assert Flatten(entries)[n] == ServerFor(entries[0], entries[0].urls[n]);
    } else {
      FlattenFrom(entries[1..], n - |e.urls|);
      var i, j :| 0 <= i < |entries[1..]| && 0 <= j < |entries[1..][i].urls| &&
                  Flatten(entries[1..])[n - |e.urls|] == ServerFor(entries[1..][i], entries[1..][i].urls[j]);
      assert entries[1..][i] == entries[i + 1];
    }
  }

  /** The nested loop of the client: for each entry, read the username and
      credential with their defaults, then add one server per url. */
  method FlattenTurnServers(entries: seq<TurnEntry>) returns (servers: seq<IceServer>)
    ensures |servers| == UrlCount(entries)
    ensures servers == Flatten(entries)
  {
    servers := [];
    var i := 0;
    while i < |entries|
      invariant 0 <= i <= |entries|
      invariant servers == Flatten(entries[..i])
    {
      var server := entries[i];
      var username := if server.username.Some? then server.username.value else "";
      var credential := if server.credential.Some? then server.credential.value else "";
      var j := 0;
      while j < |server.urls|
        invariant 0 <= j <= |server.urls|
        invariant servers == Flatten(entries[..i]) + Expand(server)[..j]
      {
        assert Expand(server)[j] == IceServer(server.urls[j], username, credential);
        assert Expand(server)[..j + 1] == Expand(server)[..j] + [Expand(server)[j]];
        servers := servers + [IceServer(server.urls[j], username, credential)];
        j := j + 1;
      }
      assert Expand(server)[..j] == Expand(server);
      assert entries[..i + 1] == entries[..i] + [server];
      FlattenAppend(entries[..i], [server]);
      assert Flatten([server]) == Expand(server) + Flatten([]);
      i := i + 1;
    }
    assert entries[..i] == entries;
  }
}

=== FILE: types.dfy ===
/**
 The data the signaling client handles: peer ids, session descriptions, ICE
 candidates, the records peers keep under the room node, the snapshots the
 room subscription delivers, the tasks posted to the client's serial handler
 and the events handed to the negotiation engine.
 */
module Types {

  /** A child node that may be missing from the delivered tree, or a JSON
      field that may be missing from the TURN response. */
  datatype Option<T> = None | Some(value: T)

  /** A participant id; the client uses the device serial number. */
  type PeerId = string

  /** The key a published candidate is stored under: the candidate's hash code.
      The store renders it in decimal, which is injective, so keying by the
      integer itself is equivalent. */
  type CandKey = int

  /** The kinds of a WebRTC session description. */
  datatype SdpType = Offer | PrAnswer | Answer

  /** A session description: its kind and its opaque SDP text. */
  datatype Sdp = Sdp(kind: SdpType, description: string)

  /** An ICE candidate, as stored under `icecandidate/<key>`. */
  datatype Candidate = Candidate(sdpMid: string, sdpMLineIndex: int, sdp: string)

  /** The node `<room>/<peerId>`: a `connected` flag, an optional `sdp` child
      and the `icecandidate` children keyed by candidate key. */
  datatype PeerRecord = PeerRecord(connected: bool, sdp: Option<Sdp>, candidates: map<CandKey, Candidate>)

  /** The room node: one record per peer. */
  type Room = map<PeerId, PeerRecord>

  /** One child of a delivered room snapshot, with its candidates in the
      order the subscription lists them. */
  datatype SnapChild = SnapChild(id: PeerId, connected: bool, sdp: Option<Sdp>, candidates: seq<Candidate>)

  /** A full snapshot of the room node, children in delivery order. */
  datatype Snapshot = Snapshot(children: seq<SnapChild>)

  /** A TURN/STUN server as the negotiation engine receives it. */
  datatype IceServer = IceServer(uri: string, username: string, password: string)

  /** One entry of the `iceServers` array of the TURN configuration response. */
  datatype TurnEntry = TurnEntry(urls: seq<string>, username: Option<string>, credential: Option<string>)

  /** What the TURN configuration request produced: the parsed `iceServers`
      array, or a failure (network error, non-200 status, malformed JSON). */
  datatype FetchResult = FetchFailed | Fetched(entries: seq<TurnEntry>)

  /** The work items posted to the client's serial handler. */
  datatype Task =
    | ConnectedTask
    | SdpTask(sdp: Sdp)
    | CandidateTask(candidate: Candidate)

  /** The callbacks the client makes on the negotiation engine. */
  datatype Event =
    | ConnectedToRoom(iceServers: seq<IceServer>, initiator: bool)
    | RemoteDescription(sdp: Sdp)
    | RemoteIceCandidate(candidate: Candidate)
}
